=== FILE: README.md ===
# Twilio ↔ OpenAI Realtime relay: the per-call state machine

This project models the relay that `handle_media_stream` in `main.py` runs
for each phone call. The telephony side (Twilio Media Streams) and the model
side (the OpenAI Realtime API) are connected by two pumps:

- `receive_from_twilio` handles frames from the phone side. A `start` frame
  records `stream_sid` and opens the call's log file. A `media` frame is
  forwarded as an `input_audio_buffer.append` message while the model
  connection is open.
- `send_to_twilio` handles events from the model side. `turn.start` tracks
  `current_turn_id` and cancels a superseded turn. `turn.end` only logs.
  `response.audio.delta` is passed through `b64encode(b64decode(delta))` and
  sent back as a `media` frame carrying the current `stream_sid`.

The two pumps share `stream_sid` and the call logger; `current_turn_id`
belongs to the model pump alone. Each handles one message at a time, so a
call is modelled as one fold (`Relay.Run`) over the arrivals on both
connections, in the order they are handled. A run of one pump alone is a
special case. The model pump does suspend inside one event: while sending a
cancel (main.py:162) and while sending a frame (main.py:190). After each of
those awaits it reads the logger again. The model takes the logger once,
when the event arrives (see "## Left out"). The connections are input and
output sequences. The clock reading used for the log file name is a
parameter.

Modules:

- `Wrappers`: `Option`, and Python truthiness of an optional string.
- `Base64`: the alphabet, padding, encoder and decoder of section 4 of
  RFC 4648, and the round-trip facts behind the pass-through.
- `EventKinds`: the classified `type` of model events and the
  `LOG_EVENT_TYPES` gate.
- `CallLog`: the `call_<timestamp>_<sid>.log` name, the INFO threshold and
  the log entries.
- `Turns`: the turn controller and its replay over a sequence of turn starts.
- `Relay`: frames, events, the session state, the two step functions, the
  closing of connections and the fold over arrivals.
- `RelayLemmas`: properties of whole calls.

Three behaviours of `main.py` worth noting:

- `turn.end` does not return the controller to an idle state. It only logs,
  so the ended id stays current. A later `turn.start` with a different id
  therefore cancels the ended turn's id.
- A `stop` frame is not handled specially. Like any frame other than `start`
  and `media`, it changes nothing. With the disconnect handler running as
  intended, only the phone side's disconnect closes the model connection
  (as the program runs, that handler never fires: see "## Findings").
- A delta whose discarded pad bits are non-zero decodes (the non-validating
  `b64decode` ignores those bits). It is forwarded re-encoded in canonical
  form, not verbatim and not dropped.

## Model

| member | source | states |
|---|---|---|
| Base64.Encode | main.py:180 | the output is whole quanta: its length is a multiple of four and equals 4·⌈n/3⌉ for n octets |
| Base64.Decode | main.py:181-182 | a successful decode yields at most three octets per four characters |
| Base64.DecodableLength | main.py:181-182 | only strings whose length is a multiple of four decode |
| Base64.EncodeThenDecode | main.py:180-182 | decoding the encoding of any octet string gives that octet string back |
| Base64.EncodeIsCanonical | main.py:180-182 | every encoder output decodes and has zero discarded bits |
| Base64.DecodeThenEncode | main.py:180-182 | re-encoding a decoded string reproduces it exactly when it is canonical |
| Base64.PassThrough | main.py:180-182 | the relay's re-encoding fails exactly when decoding fails; it returns its input exactly when the input is canonical; what it returns is always canonical |
| EventKinds.Classify | main.py:152 | classifying a `type` string keeps its name, and only strings naming no known kind are unlisted |
| EventKinds.AuditedIffListed | main.py:60-64 | an event is audited exactly when its `type` string is in `LOG_EVENT_TYPES` |
| CallLog.ZeroPad | main.py:38 | the padded field has exactly the requested width, all digits, and reads back as the number |
| CallLog.FormatTimestamp | main.py:38 | the `%Y%m%d_%H%M%S` stamp is 15 characters with `_` at position 8 and parses back to the same clock reading |
| CallLog.FileName | main.py:39 | the file name is `call_`, the stamp, `_`, the stream id and `.log`, each at a fixed position |
| CallLog.FileNameInjective | main.py:38-39 | two calls share a log file only if they started in the same second with the same stream id |
| CallLog.Write | main.py:42-47 | a logging call writes one line exactly when a logger exists and the level is at least INFO, to that logger's file |
| Turns.OnTurnStart | main.py:158-170 | the started id becomes current; a cancel is issued exactly when a truthy current id differs from it, and names the previous id, never the started one |
| Turns.Replay | main.py:158-168 | after a run of starts the current id is the last started one, with at most one non-empty cancel per start |
| Turns.ReplayCountsSupersessions | main.py:158-168 | the number of cancels equals the number of starts that supersede a truthy, different id |
| Turns.ReplayCancelsPredecessors | main.py:158-168 | the cancels match the superseding starts one-to-one and in order; each names the id current before its start and never the id being started |
| Relay.OnTwilioFrame | main.py:116-136 | `start` sets the stream id and log file and logs the call start; `media` yields one append with the payload unchanged iff the model side is open, whether or not a start was seen; media is logged only once a logger exists, and while the model side is open and a logger exists it gets exactly the "Received audio data" INFO line; other frames do nothing |
| Relay.OnStart | main.py:120-124 | a start frame records the stream id and the log file `call_<stamp>_<sid>.log`, sends nothing, and writes exactly the two INFO start lines to that file |
| Relay.OnMedia | main.py:126-136 | a media frame with the model side open is appended unchanged, nothing goes to the phone side, and exactly the "Received audio data" INFO line is written when a logger exists (the DEBUG size line never is) |
| Relay.AuditEvent | main.py:151-155 | a model event gets a summary line exactly when a logger exists and its kind is audited; the payload dump is DEBUG and never reaches the file |
| Relay.OnModelEvent | main.py:148-199 | only `turn.start` changes state and sends to the model (the cancel, iff superseding); a frame goes to the phone side iff the event is a delta with a truthy, decodable payload; it carries the current stream id and canonical base64, and a canonical delta is forwarded verbatim; log lines go to the existing logger only; with a logger, a turn start logs the new turn and, when it supersedes, the cancelled turn (and no cancel line is logged otherwise), a turn end logs the ended id, and a truthy delta logs the sent audio if it decodes and an ERROR line if it does not |
| Relay.Deliver | main.py:138-142 | with the disconnect handler running as intended: once both connections are closed nothing happens; the phone side's disconnect closes the model connection too and sends nothing; connections never reopen, and a closed phone side always comes with a closed model side |
| Relay.DeliverAsWritten | main.py:116-142 | as the program runs, a hang-up only stops the telephony pump: the model side is left as it was, nothing is sent or logged, and with the model side open the session is left inconsistent; every other arrival is handled as by `Relay.Deliver`; connections never reopen |
| Relay.Run | main.py:204 | with the disconnect handler running as intended: over any arrivals the phone side closing implies the model side closed, connections never reopen, and no DEBUG line reaches the file |
| RelayLemmas.RunAppend | main.py:204 | a call over two arrival sequences in turn equals the call over their concatenation |
| RelayLemmas.FinishedSessionIgnoresAll | main.py:138-142 | once both connections are closed nothing more is sent or logged |
| RelayLemmas.TwilioCloseEndsCall | main.py:138-142 | with the disconnect handler running as intended (see "## Findings"), after the phone side disconnects the model connection is closed and later arrivals change nothing |
| RelayLemmas.StreamFixedWithoutStart | main.py:120-122 | without a start frame the stream id and log file never change, and every frame and log line uses them |
| RelayLemmas.NoLogBeforeStart | main.py:131-135 | before any start frame nothing is logged |
| RelayLemmas.StreamIdEchoed | main.py:120-122 | after a start for `sid` and until the next start, every outbound frame carries `sid` and every line goes to `call_<stamp>_<sid>.log` |
| RelayLemmas.InertEventChangesNothing | main.py:172-199 | a `turn.end`, a missing, empty or undecodable delta, or any other non-start event leaves the rest of the call, except the log, exactly as if it had not arrived |
| RelayLemmas.RunSendsCanonical | main.py:180-190 | every payload a call sends to the phone side is canonical base64 |
| RelayLemmas.DeliverSendsCanonical | main.py:183-190 | a frame sent in one step carries canonical base64 and the stream id current at that moment |
| RelayLemmas.TwilioPumpForwardsMedia | main.py:126-136 | while the model side is open, the telephony pump forwards every media payload once, unchanged and in order, and sends nothing to the phone side |
| RelayLemmas.ModelPumpCancels | main.py:158-168 | the model pump's messages to the model are exactly the replayed cancels of the turn-start ids, and its final turn is the replay's |
| RelayLemmas.StartStep | main.py:120-124 | a start on an open phone side sets the stream id and sends nothing |
| RelayLemmas.MediaStep | main.py:126-136 | a media frame with both sides open appends its payload and changes nothing else |
| RelayLemmas.DeltaForwarded | main.py:176-190 | a truthy, canonical delta goes to the phone side verbatim under the current stream id |
| RelayLemmas.StartMediaDelta | main.py:120-190 | start, media, then a canonical delta: exactly one append of the audio and exactly one frame back with the stream id and the delta unchanged |
| RelayLemmas.HangUpLeavesModelOpen | main.py:116-142 | as the program runs, a hang-up ends only the telephony pump: the model connection stays open, nothing is logged, and a later delta is still sent towards the closed phone side |
| EventKinds.ClassifyExactlyWellClassified | main.py:149-152 | every kind read from a message's `type` is well classified, and each well-classified kind is read back from its own name |

## Left out

- Network I/O: accepting the sockets, `websockets.connect`, `iter_text`, `send`, `send_json` and `close`. Connections are sequences of already-parsed messages, with a flag for each side still being read.
- JSON parsing and serialisation. Frames and events are datatypes, and a message missing a required key (a `KeyError` that ends the pump) is not represented.
- The outer `except Exception` of `send_to_twilio` (main.py:200-202). It only fires on failures outside the model, such as a malformed message or a socket error.
- A failed `send_json` inside the delta `try` block, which is logged like a decoding error. The model treats sending as always succeeding.
- Relay.Deliver: models the disconnect handler at main.py:138-142 as the code intends, closing the model connection and logging the disconnect. Starlette's `iter_text` catches `WebSocketDisconnect` itself and ends the loop quietly, so that handler never runs. In the running program a hang-up leaves the model connection open and logs nothing. Later frames sent to the closed phone side fail and are logged at main.py:196-199. `Relay.DeliverAsWritten` models that behaviour (see "## Findings").
- Relay.Run: folds `Relay.Deliver`, so its promise that a closed phone side comes with a closed model side holds for the disconnect handler as intended, not for the program as it runs (see the `Relay.Deliver` line above).
- Relay.OnModelEvent: every log line of one event goes to the file current when the event arrived. The code reads the logger again after the awaits at main.py:162 and main.py:190. A start frame handled during one of those awaits sends the cancel, new-turn and sent-audio lines (main.py:166-170, 191-195) to the new call's file instead.
- Base64.Decode: rejects characters outside the alphabet and padding anywhere but the end of the last quantum, whereas Python's non-validating `b64decode` skips non-alphabet characters and tolerates some misplaced padding. Such deltas are modelled as decode failures.
- CallLog.FormatTimestamp: years are restricted to four digits (1000 to 9999), where `%Y` formatting of other years is platform dependent.
- The logging machinery: handlers, formatters, file creation under `LOGS_DIR`, propagation to the root logger, and a second handler added when the same stream id starts twice. Log lines are abstract entries tagged with a file name. Payload dumps are kept abstract.
- `datetime.now()` becomes the timestamp parameter of the start step.
- `send_session_update`, `load_system_prompt`, the API key check at import, the `/incoming-call` TwiML handler, the index route and the trailing `app.run`. None of them takes part in the relay's state machine.
- The `print` calls to the console.

## Findings

| source | as written | input that shows it | evidently intended | confidence | as-written member | corrected member |
|---|---|---|---|---|---|---|
| main.py:116-142 | the hang-up handler is an `except WebSocketDisconnect` around `async for ... in websocket.iter_text()`, but Starlette's `iter_text` catches that exception and ends the loop quietly | the caller hangs up mid-call, then the model sends an audio delta | on hang-up, log "Client disconnected" and close the model connection, so nothing more is relayed | not executed; medium, because it rests on Starlette's `iter_text`, which is not part of this model | RelayLemmas.HangUpLeavesModelOpen | RelayLemmas.TwilioCloseEndsCall |

=== FILE: base64.dfy ===
/**
 * The base64 alphabet and padding of section 4 of RFC 4648, with an encoder,
 * a decoder that behaves like Python's non-validating `base64.b64decode` on
 * alphabet-only input, and the round-trip facts that make the relay's
 * decode-then-encode pass-through lossless.
 */
module Base64 {
  import opened Wrappers

  type Byte = b: nat | b < 256
  /** One base64 digit: a 6-bit group. */
  type Sextet = v: nat | v < 64

  const Pad: char := '='

  /** Table 1 of RFC 4648: 0-25 are 'A'-'Z', 26-51 'a'-'z', 52-61 '0'-'9', 62 '+', 63 '/'. */
  function CharOf(v: Sextet): (c: char)
    ensures c != Pad
  {
    if v < 26 then ('A' as int + v) as char
    else if v < 52 then ('a' as int + (v - 26)) as char
    else if v < 62 then ('0' as int + (v - 52)) as char
    else if v == 62 then '+'
    else '/'
  }

  /** Inverse of the alphabet table; `None` for every character outside it. */
  function SextetOf(c: char): (r: Option<Sextet>)
  {
    if 'A' <= c <= 'Z' then Some(c as int - 'A' as int)
    else if 'a' <= c <= 'z' then Some(c as int - 'a' as int + 26)
    else if '0' <= c <= '9' then Some(c as int - '0' as int + 52)
    else if c == '+' then Some(62)
    else if c == '/' then Some(63)
    else None
  }

  lemma SextetOfCharOf(v: Sextet)
    ensures SextetOf(CharOf(v)) == Some(v)
  {
  }

  lemma CharOfSextetOf(c: char)
    requires SextetOf(c).Some?
    ensures CharOf(SextetOf(c).value) == c
  {
  }

  /** Splits three octets into the four 6-bit groups of one 24-bit quantum. */
  function EncodeTriple(b0: Byte, b1: Byte, b2: Byte): (r: string)
  {
    [CharOf(b0 / 4), CharOf((b0 % 4) * 16 + b1 / 16), CharOf((b1 % 16) * 4 + b2 / 64), CharOf(b2 % 64)]
  }

  /** Base64 encoding with `=` padding of the final group, as `base64.b64encode`. */
  function Encode(b: seq<Byte>): (r: string)
    ensures |r| % 4 == 0 && 4 * |b| <= 3 * |r| < 4 * |b| + 12
    ensures |r| == 4 * ((|b| + 2) / 3)
    decreases |b|
  {
    if |b| == 0 then ""
    else if |b| == 1 then [CharOf(b[0] / 4), CharOf((b[0] % 4) * 16), Pad, Pad]
    else if |b| == 2 then [CharOf(b[0] / 4), CharOf((b[0] % 4) * 16 + b[1] / 16), CharOf((b[1] % 16) * 4), Pad]
    else EncodeTriple(b[0], b[1], b[2]) + Encode(b[3..])
  }

  /** Joins four 6-bit groups back into three octets. */
  function JoinQuad(v0: Sextet, v1: Sextet, v2: Sextet, v3: Sextet): (r: seq<Byte>)
    ensures |r| == 3
  {
    [v0 * 4 + v1 / 16, (v1 % 16) * 16 + v2 / 4, (v2 % 4) * 64 + v3]
  }

  /** Four alphabet characters with no padding make three octets. */
  function DecodeQuad(c0: char, c1: char, c2: char, c3: char): (r: Option<seq<Byte>>)
    ensures r.Some? ==> |r.value| == 3
  {
    var v0, v1, v2, v3 := SextetOf(c0), SextetOf(c1), SextetOf(c2), SextetOf(c3);
    if v0.Some? && v1.Some? && v2.Some? && v3.Some? then Some(JoinQuad(v0.value, v1.value, v2.value, v3.value))
    else None
  }

  /**
   * The last quantum may end in "==" (one octet) or "=" (two octets). The
   * bits of the last character that fall beyond the final octet are
   * discarded whatever they are, as the non-validating decoder does.
   */
  function DecodeFinal(c0: char, c1: char, c2: char, c3: char): (r: Option<seq<Byte>>)
    ensures r.Some? ==> 1 <= |r.value| <= 3
  {
    var v0, v1, v2 := SextetOf(c0), SextetOf(c1), SextetOf(c2);
    if c2 == Pad && c3 == Pad then
      if v0.Some? && v1.Some? then Some(JoinQuad(v0.value, v1.value, 0, 0)[..1]) else None
    else if c3 == Pad then
      if v0.Some? && v1.Some? && v2.Some? then Some(JoinQuad(v0.value, v1.value, v2.value, 0)[..2]) else None
    else DecodeQuad(c0, c1, c2, c3)
  }

  /**
   * Decoding of a string made of alphabet characters and final padding.
   * A length that is not a multiple of four, a character outside the
   * alphabet, or padding anywhere but at the end of the last quantum fails.
   */
  function Decode(s: string): (r: Option<seq<Byte>>)
    ensures r.Some? ==> 4 * |r.value| <= 3 * |s|
    decreases |s|
  {
    if |s| == 0 then Some([])
    else if |s| < 4 then None
    else if |s| == 4 then DecodeFinal(s[0], s[1], s[2], s[3])
    else
      match DecodeQuad(s[0], s[1], s[2], s[3])
      case None => None
      case Some(q) =>
        match Decode(s[4..])
        case None => None
        case Some(rest) => Some(q + rest)
  }

  /** Only whole quanta decode: the length of a decodable string is a multiple of four. */
  lemma {:induction false} DecodableLength(s: string)
    requires Decode(s).Some?
    ensures |s| % 4 == 0
    decreases |s|
  {
    if |s| > 4 {
      DecodeUncons(s);
      DecodableLength(s[4..]);
      AddQuantum(|s[4..]|);
    }
  }

  lemma AddQuantum(n: nat)
    requires n % 4 == 0
    ensures (n + 4) % 4 == 0
  {
  }

  /**
   * A decodable string is canonical when the discarded bits of its last
   * quantum are zero, i.e. it is exactly what the encoder would produce.
   */
  predicate Canonical(s: string)
  {
    Decode(s).Some? && FinalQuantumZero(s)
  }

  predicate FinalQuantumZero(s: string)
  {
    |s| < 4 || FinalBitsZero(s[|s| - 4], s[|s| - 3], s[|s| - 2], s[|s| - 1])
  }

  predicate FinalBitsZero(c0: char, c1: char, c2: char, c3: char)
  {
    if c2 == Pad && c3 == Pad then SextetOf(c1).Some? && SextetOf(c1).value % 16 == 0
    else if c3 == Pad then SextetOf(c2).Some? && SextetOf(c2).value % 4 == 0
    else true
  }

  /**
   * The relay's `b64encode(b64decode(delta))`: fails exactly when decoding
   * fails, and gives the input back exactly when the input is canonical.
   */
  function PassThrough(s: string): (r: Option<string>)
    ensures r.Some? <==> Decode(s).Some?
    ensures r == Some(s) <==> Canonical(s)
    ensures r.Some? ==> Canonical(r.value)
  {
    match Decode(s)
    case None => None
    case Some(b) =>
      EncodeIsCanonical(b);
      DecodeThenEncode(s);
      Some(Encode(b))
  }

  lemma {:induction false} EncodeThenDecode(b: seq<Byte>)
    ensures Decode(Encode(b)) == Some(b)
    decreases |b|
  {
    if |b| == 1 {
      OneOctetRoundTrip(b);
    } else if |b| == 2 {
      TwoOctetsRoundTrip(b);
    } else if |b| > 2 {
      var head, tail := EncodeTriple(b[0], b[1], b[2]), Encode(b[3..]);
      assert Encode(b) == head + tail;
      EncodeThenDecode(b[3..]);
      TripleRoundTrip(b[0], b[1], b[2]);
      DecodeCons(head, tail);
      assert [b[0], b[1], b[2]] + b[3..] == b;
    }
  }

  lemma OneOctetRoundTrip(b: seq<Byte>)
    requires |b| == 1
    ensures Decode(Encode(b)) == Some(b)
  {
    var v0, v1 := b[0] / 4, (b[0] % 4) * 16;
    var c0, c1 := CharOf(v0), CharOf(v1);
    assert Encode(b) == [c0, c1, Pad, Pad];
    SextetOfCharOf(v0);
    SextetOfCharOf(v1);
    DecodeFinalTwo(c0, c1, v0, v1);
    JoinOne(b[0]);
    assert b == [b[0]];
  }

  lemma TwoOctetsRoundTrip(b: seq<Byte>)
    requires |b| == 2
    ensures Decode(Encode(b)) == Some(b)
  {
    var v0, v1, v2 := b[0] / 4, (b[0] % 4) * 16 + b[1] / 16, (b[1] % 16) * 4;
    var c0, c1, c2 := CharOf(v0), CharOf(v1), CharOf(v2);
    assert Encode(b) == [c0, c1, c2, Pad];
    SextetOfCharOf(v0);
    SextetOfCharOf(v1);
    SextetOfCharOf(v2);
    DecodeFinalThree(c0, c1, c2, v0, v1, v2);
    JoinTwo(b[0], b[1]);
    assert b == [b[0], b[1]];
  }

  lemma JoinOne(x: Byte)
    ensures JoinQuad(x / 4, (x % 4) * 16, 0, 0)[..1] == [x]
  {
  }

  lemma JoinTwo(x: Byte, y: Byte)
    ensures JoinQuad(x / 4, (x % 4) * 16 + y / 16, (y % 16) * 4, 0)[..2] == [x, y]
  {
  }

  lemma DecodeFinalTwo(c0: char, c1: char, v0: Sextet, v1: Sextet)
    requires SextetOf(c0) == Some(v0) && SextetOf(c1) == Some(v1)
    ensures Decode([c0, c1, Pad, Pad]) == Some(JoinQuad(v0, v1, 0, 0)[..1])
  {
  }

  lemma DecodeFinalThree(c0: char, c1: char, c2: char, v0: Sextet, v1: Sextet, v2: Sextet)
    requires SextetOf(c0) == Some(v0) && SextetOf(c1) == Some(v1) && SextetOf(c2) == Some(v2)
    ensures Decode([c0, c1, c2, Pad]) == Some(JoinQuad(v0, v1, v2, 0)[..2])
  {
  }

  /** Decoding a full leading quantum followed by a decodable remainder. */
  lemma DecodeCons(head: string, tail: string)
    requires |head| == 4 && DecodeQuad(head[0], head[1], head[2], head[3]).Some?
    requires Decode(tail).Some?
    ensures Decode(head + tail) == Some(DecodeQuad(head[0], head[1], head[2], head[3]).value + Decode(tail).value)
  {
    var s := head + tail;
    assert s[..4] == head;
    assert s[4..] == tail;
    if |tail| == 0 {
      assert s == head;
      assert DecodeFinal(head[0], head[1], head[2], head[3]) == DecodeQuad(head[0], head[1], head[2], head[3]);
      assert DecodeQuad(head[0], head[1], head[2], head[3]).value + [] == DecodeQuad(head[0], head[1], head[2], head[3]).value;
    }
  }

  /** Octets -> sextets -> octets is the identity (pure arithmetic). */
  lemma SplitJoin(b0: Byte, b1: Byte, b2: Byte)
    ensures JoinQuad(b0 / 4, (b0 % 4) * 16 + b1 / 16, (b1 % 16) * 4 + b2 / 64, b2 % 64) == [b0, b1, b2]
  {
  }

  /** Sextets -> octets -> sextets is the identity (pure arithmetic). */
  lemma JoinSplit(v0: Sextet, v1: Sextet, v2: Sextet, v3: Sextet)
    ensures var q := JoinQuad(v0, v1, v2, v3);
      q[0] / 4 == v0 && (q[0] % 4) * 16 + q[1] / 16 == v1 && (q[1] % 16) * 4 + q[2] / 64 == v2 && q[2] % 64 == v3
  {
  }

  lemma TripleRoundTrip(b0: Byte, b1: Byte, b2: Byte)
    ensures var e := EncodeTriple(b0, b1, b2); DecodeQuad(e[0], e[1], e[2], e[3]) == Some([b0, b1, b2])
  {
    var e := EncodeTriple(b0, b1, b2);
    SextetOfCharOf(b0 / 4);
    SextetOfCharOf((b0 % 4) * 16 + b1 / 16);
    SextetOfCharOf((b1 % 16) * 4 + b2 / 64);
    SextetOfCharOf(b2 % 64);
    SplitJoin(b0, b1, b2);
  }

  lemma EncodeIsCanonical(b: seq<Byte>)
    ensures Canonical(Encode(b))
  {
    EncodeThenDecode(b);
    EncodeFinalQuantumZero(b);
  }

  lemma {:induction false} EncodeFinalQuantumZero(b: seq<Byte>)
    ensures FinalQuantumZero(Encode(b))
    decreases |b|
  {
    var s := Encode(b);
    if |b| == 1 {
      var v1 := (b[0] % 4) * 16;
      assert s == [CharOf(b[0] / 4), CharOf(v1), Pad, Pad];
      SextetOfCharOf(v1);
    } else if |b| == 2 {
      var v2 := (b[1] % 16) * 4;
      assert s == [CharOf(b[0] / 4), CharOf((b[0] % 4) * 16 + b[1] / 16), CharOf(v2), Pad];
      SextetOfCharOf(v2);
    } else if |b| > 2 {
      var head, tail := EncodeTriple(b[0], b[1], b[2]), Encode(b[3..]);
      assert s == head + tail;
      if |tail| == 0 {
        assert s == head;
      } else {
        EncodeFinalQuantumZero(b[3..]);
        SameFinalQuantum(head, tail);
      }
    }
  }

  /** Prepending characters does not change the last quantum of a string of four or more. */
  lemma SameFinalQuantum(head: string, tail: string)
    requires |tail| >= 4
    ensures FinalQuantumZero(head + tail) <==> FinalQuantumZero(tail)
  {
    var s := head + tail;
    assert s[|s| - 4] == tail[|tail| - 4] && s[|s| - 3] == tail[|tail| - 3];
    assert s[|s| - 2] == tail[|tail| - 2] && s[|s| - 1] == tail[|tail| - 1];
  }

  /** Re-encoding a decoded string gives it back exactly when it is canonical. */
  lemma DecodeThenEncode(s: string)
    requires Decode(s).Some?
    ensures Encode(Decode(s).value) == s <==> Canonical(s)
  {
    var b := Decode(s).value;
    if Encode(b) == s {
      EncodeIsCanonical(b);
    }
    if Canonical(s) {
      CanonicalReencodes(s);
    }
  }

  lemma {:induction false} CanonicalReencodes(s: string)
    requires Canonical(s)
    ensures Encode(Decode(s).value) == s
    decreases |s|
  {
    if |s| == 4 {
      FinalReencodes(s[0], s[1], s[2], s[3]);
      assert s == [s[0], s[1], s[2], s[3]];
    } else if |s| > 4 {
      CanonicalRest(s);
      CanonicalReencodes(s[4..]);
      ReencodeStep(s);
    }
  }

  lemma CanonicalRest(s: string)
    requires |s| > 4 && Canonical(s)
    ensures Canonical(s[4..])
  {
    DecodeUncons(s);
    assert s == s[..4] + s[4..];
    SameFinalQuantum(s[..4], s[4..]);
  }

  lemma ReencodeStep(s: string)
    requires |s| > 4 && Decode(s).Some?
    requires Encode(Decode(s[4..]).value) == s[4..]
    ensures Encode(Decode(s).value) == s
  {
    SplitFirstQuantum(s);
    DecodeUncons(s);
    var q, r := DecodeQuad(s[0], s[1], s[2], s[3]).value, Decode(s[4..]).value;
    QuadReencodes(s[0], s[1], s[2], s[3]);
    EncodeCons(q, r);
  }

  lemma SplitFirstQuantum(s: string)
    requires |s| >= 4
    ensures s == [s[0], s[1], s[2], s[3]] + s[4..]
  {
  }

  lemma DecodeUncons(s: string)
    requires |s| > 4 && Decode(s).Some?
    ensures DecodeQuad(s[0], s[1], s[2], s[3]).Some? && Decode(s[4..]).Some?
    ensures Decode(s).value == DecodeQuad(s[0], s[1], s[2], s[3]).value + Decode(s[4..]).value
  {
  }

  /** Encoding distributes over a leading full quantum. */
  lemma EncodeCons(q: seq<Byte>, r: seq<Byte>)
    requires |q| == 3
    ensures Encode(q + r) == EncodeTriple(q[0], q[1], q[2]) + Encode(r)
  {
    var b := q + r;
    assert b[3..] == r;
  }

  lemma QuadReencodes(c0: char, c1: char, c2: char, c3: char)
    requires DecodeQuad(c0, c1, c2, c3).Some?
    ensures var q := DecodeQuad(c0, c1, c2, c3).value; |q| == 3 && EncodeTriple(q[0], q[1], q[2]) == [c0, c1, c2, c3]
  {
    var v0, v1, v2, v3 := SextetOf(c0).value, SextetOf(c1).value, SextetOf(c2).value, SextetOf(c3).value;
    CharOfSextetOf(c0); CharOfSextetOf(c1); CharOfSextetOf(c2); CharOfSextetOf(c3);
    JoinSplit(v0, v1, v2, v3);
  }

  lemma FinalReencodes(c0: char, c1: char, c2: char, c3: char)
    requires DecodeFinal(c0, c1, c2, c3).Some?
    requires FinalBitsZero(c0, c1, c2, c3)
    ensures Encode(DecodeFinal(c0, c1, c2, c3).value) == [c0, c1, c2, c3]
  {
    var q := DecodeFinal(c0, c1, c2, c3).value;
    if c2 == Pad && c3 == Pad {
      var v0, v1 := SextetOf(c0).value, SextetOf(c1).value;
      CharOfSextetOf(c0); CharOfSextetOf(c1);
      JoinSplit(v0, v1, 0, 0);
    } else if c3 == Pad {
      var v0, v1, v2 := SextetOf(c0).value, SextetOf(c1).value, SextetOf(c2).value;
      CharOfSextetOf(c0); CharOfSextetOf(c1); CharOfSextetOf(c2);
      JoinSplit(v0, v1, v2, 0);
    } else {
      QuadReencodes(c0, c1, c2, c3);
      assert q[3..] == [];
    }
  }
}

=== FILE: call_log.dfy ===
/**
 * The per-call audit log: the file name built from a clock reading and the
 * stream id, the INFO threshold the call logger is configured with, the
 * entries the relay writes.
 */
module CallLog {
  import opened Wrappers
  import opened EventKinds

  // A wall-clock reading as `datetime.now()` returns it (years restricted to four digits).
  type Year = y: int | 1000 <= y <= 9999 witness 1000
  type Month = m: int | 1 <= m <= 12 witness 1
  type Day = d: int | 1 <= d <= 31 witness 1
  type Hour = h: int | 0 <= h < 24
  type Minute = m: int | 0 <= m < 60
  type Second = s: int | 0 <= s < 60

  datatype Timestamp = Timestamp(year: Year, month: Month, day: Day, hour: Hour, minute: Minute, second: Second)

  function Pow10(n: nat): (r: nat)
    ensures r >= 1
  {
    if n == 0 then 1 else 10 * Pow10(n - 1)
  }

  predicate IsDigit(c: char)
  {
    '0' <= c <= '9'
  }

  /** The value of a string of decimal digits, most significant first. */
  function ReadDecimal(s: string): nat
    requires forall i :: 0 <= i < |s| ==> IsDigit(s[i])
  {
    if |s| == 0 then 0
    else
      assert IsDigit(s[|s| - 1]);
      ReadDecimal(s[..|s| - 1]) * 10 + (s[|s| - 1] as int - '0' as int)
  }

  /** `n` in decimal, left-padded with zeros to exactly `width` digits (strftime's `%Y`, `%m`, ...). */
  function ZeroPad(n: nat, width: nat): (r: string)
    requires n < Pow10(width)
    ensures |r| == width
    ensures forall i :: 0 <= i < |r| ==> IsDigit(r[i])
    ensures ReadDecimal(r) == n
  {
    if width == 0 then ""
    else
      var prefix := ZeroPad(n / 10, width - 1);
      var r := prefix + [('0' as int + n % 10) as char];
      assert r[..|r| - 1] == prefix;
      r
  }

  /** strftime("%Y%m%d_%H%M%S"). */
  function FormatTimestamp(t: Timestamp): (r: string)
    ensures |r| == 15 && r[8] == '_'
    ensures ParseTimestamp(r) == Some(t)
  {
    var date := ZeroPad(t.year, 4) + ZeroPad(t.month, 2) + ZeroPad(t.day, 2);
    var time := ZeroPad(t.hour, 2) + ZeroPad(t.minute, 2) + ZeroPad(t.second, 2);
    var r := date + "_" + time;
    assert r[0..4] == ZeroPad(t.year, 4);
    assert r[4..6] == ZeroPad(t.month, 2);
    assert r[6..8] == ZeroPad(t.day, 2);
    assert r[9..11] == ZeroPad(t.hour, 2);
    assert r[11..13] == ZeroPad(t.minute, 2);
    assert r[13..15] == ZeroPad(t.second, 2);
    r
  }

  predicate AllDigits(s: string)
  {
    forall i :: 0 <= i < |s| ==> IsDigit(s[i])
  }

  /** Reads back a fifteen-character "YYYYmmdd_HHMMSS" stamp; `None` when it is not one. */
  function ParseTimestamp(s: string): Option<Timestamp>
  {
    if |s| != 15 || s[8] != '_' || !AllDigits(s[0..8]) || !AllDigits(s[9..15]) then None
    else
      assert AllDigits(s[0..4]) && AllDigits(s[4..6]) && AllDigits(s[6..8]) by {
        assert forall i :: 0 <= i < 4 ==> s[0..4][i] == s[0..8][i];
        assert forall i :: 0 <= i < 2 ==> s[4..6][i] == s[0..8][i + 4];
        assert forall i :: 0 <= i < 2 ==> s[6..8][i] == s[0..8][i + 6];
      }
      assert AllDigits(s[9..11]) && AllDigits(s[11..13]) && AllDigits(s[13..15]) by {
        assert forall i :: 0 <= i < 2 ==> s[9..11][i] == s[9..15][i];
        assert forall i :: 0 <= i < 2 ==> s[11..13][i] == s[9..15][i + 2];
        assert forall i :: 0 <= i < 2 ==> s[13..15][i] == s[9..15][i + 4];
      }
      var year, month, day := ReadDecimal(s[0..4]), ReadDecimal(s[4..6]), ReadDecimal(s[6..8]);
      var hour, minute, second := ReadDecimal(s[9..11]), ReadDecimal(s[11..13]), ReadDecimal(s[13..15]);
      if 1000 <= year <= 9999 && 1 <= month <= 12 && 1 <= day <= 31 && hour < 24 && minute < 60 && second < 60
      then Some(Timestamp(year, month, day, hour, minute, second))
      else None
  }

  /** The log file of one call: `call_{timestamp}_{stream_sid}.log` (inside the `logs` directory). */
  function FileName(at: Timestamp, streamSid: string): (r: string)
    ensures |r| == |streamSid| + 25
    ensures r[..5] == "call_" && r[5..20] == FormatTimestamp(at) && r[20] == '_'
    ensures r[21..|r| - 4] == streamSid && r[|r| - 4..] == ".log"
  {
    var r := "call_" + FormatTimestamp(at) + "_" + streamSid + ".log";
    assert r[5..20] == FormatTimestamp(at);
    assert r[21..|r| - 4] == streamSid;
    r
  }

  /** Two calls share a log file only if they started in the same second with the same stream id. */
  lemma FileNameInjective(t1: Timestamp, sid1: string, t2: Timestamp, sid2: string)
    requires FileName(t1, sid1) == FileName(t2, sid2)
    ensures t1 == t2 && sid1 == sid2
  {
    var name := FileName(t1, sid1);
    assert FormatTimestamp(t1) == name[5..20] == FormatTimestamp(t2);
    assert ParseTimestamp(FormatTimestamp(t1)) == Some(t1);
  }

  /** Python logging levels used by the relay, lowest first. */
  datatype Level = Debug | Info | Error

  /** The call logger and its file handler are both set to INFO: only INFO and above reach the file. */
  predicate PassesThreshold(level: Level)
  {
    level != Debug
  }

  /** What each logging call of the relay records. Payload dumps are kept abstract. */
  datatype Entry =
    | CallStarted(streamSid: string)
    | StartPayload
    | ReceivedAudio
    | AudioPayloadSize(size: nat)
    | ModelEventSeen(kind: EventKind)
    | FullEventPayload
    | CancelledTurn(cancelled: string)
    | NewTurn(turnId: Option<string>)
    | TurnEnded(turnId: Option<string>)
    | SentAudio
    | AudioResponseSize(size: nat)
    | AudioError
    | ClientDisconnected

  datatype LogLine = LogLine(file: string, level: Level, entry: Entry)

  /**
   * One `logger.<level>(...)` call guarded by `if logger:`. Nothing is
   * written while no logger exists, and DEBUG calls never reach the file.
   */
  function Write(logFile: Option<string>, level: Level, entry: Entry): (r: seq<LogLine>)
    ensures |r| <= 1
    ensures r != [] <==> logFile.Some? && PassesThreshold(level)
    ensures forall line :: line in r ==> line == LogLine(logFile.value, level, entry)
  {
    match logFile
    case None => []
    case Some(file) => if PassesThreshold(level) then [LogLine(file, level, entry)] else []
  }
}

=== FILE: event_kinds.dfy ===
/**
 * The `type` field of model events. The relay compares it against a few
 * fixed strings; classifying it once into a datatype keeps those
 * comparisons in one place.
 */
module EventKinds {

  datatype EventKind =
    | ResponseContentDone
    | RateLimitsUpdated
    | ResponseDone
    | BufferCommitted
    | SpeechStopped
    | SpeechStarted
    | SessionCreated
    | TurnStart
    | TurnEnd
    | AudioDelta
    | Unlisted(name: string)  // any other `type`

  /** The `type` string of each kind. */
  function Name(k: EventKind): string
  {
    match k
    case ResponseContentDone => "response.content.done"
    case RateLimitsUpdated => "rate_limits.updated"
    case ResponseDone => "response.done"
    case BufferCommitted => "input_audio_buffer.committed"
    case SpeechStopped => "input_audio_buffer.speech_stopped"
    case SpeechStarted => "input_audio_buffer.speech_started"
    case SessionCreated => "session.created"
    case TurnStart => "turn.start"
    case TurnEnd => "turn.end"
    case AudioDelta => "response.audio.delta"
    case Unlisted(name) => name
  }

  /** Reads a `type` string; every string keeps its name, and only unknown strings are `Unlisted`. */
  function Classify(t: string): (k: EventKind)
    ensures Name(k) == t
    ensures k.Unlisted? ==> forall known: EventKind :: !known.Unlisted? ==> Name(known) != t
  {
    if t == "response.content.done" then ResponseContentDone
    else if t == "rate_limits.updated" then RateLimitsUpdated
    else if t == "response.done" then ResponseDone
    else if t == "input_audio_buffer.committed" then BufferCommitted
    else if t == "input_audio_buffer.speech_stopped" then SpeechStopped
    else if t == "input_audio_buffer.speech_started" then SpeechStarted
    else if t == "session.created" then SessionCreated
    else if t == "turn.start" then TurnStart
    else if t == "turn.end" then TurnEnd
    else if t == "response.audio.delta" then AudioDelta
    else Unlisted(t)
  }

  /**
   * The kinds `Classify` can produce: `Unlisted` only for a name that is
   * no known kind's (the datatype also admits `Unlisted("turn.start")`,
   * which no message yields).
   */
  predicate WellClassified(k: EventKind)
  {
    !k.Unlisted? || Classify(k.name) == k
  }

  /** Every kind read from a message is well classified, and a well-classified kind is read back from its own name. */
  lemma ClassifyExactlyWellClassified(t: string, k: EventKind)
    ensures WellClassified(Classify(t))
    ensures WellClassified(k) ==> Classify(Name(k)) == k
  {
  }

  /** Model event types whose arrival is recorded in the call log (`LOG_EVENT_TYPES`). */
  const LogEventTypes: seq<string> := [
    "response.content.done", "rate_limits.updated", "response.done",
    "input_audio_buffer.committed", "input_audio_buffer.speech_stopped",
    "input_audio_buffer.speech_started", "session.created", "turn.start", "turn.end"
  ]

  /** The kinds named in `LogEventTypes`: everything but audio deltas and unlisted types. */
  predicate Audited(k: EventKind)
  {
    !k.AudioDelta? && !k.Unlisted?
  }

  /** The audit gate on kinds agrees with membership of the raw `type` in `LogEventTypes`. */
  lemma AuditedIffListed(t: string)
    ensures Audited(Classify(t)) <==> t in LogEventTypes
  {
    var k := Classify(t);
    if !k.Unlisted? && !k.AudioDelta? {
      assert t == Name(k);
      assert Name(k) in LogEventTypes by {
        match k
        case ResponseContentDone => assert LogEventTypes[0] == Name(k);
        case RateLimitsUpdated => assert LogEventTypes[1] == Name(k);
        case ResponseDone => assert LogEventTypes[2] == Name(k);
        case BufferCommitted => assert LogEventTypes[3] == Name(k);
        case SpeechStopped => assert LogEventTypes[4] == Name(k);
        case SpeechStarted => assert LogEventTypes[5] == Name(k);
        case SessionCreated => assert LogEventTypes[6] == Name(k);
        case TurnStart => assert LogEventTypes[7] == Name(k);
        case TurnEnd => assert LogEventTypes[8] == Name(k);
      }
    }
    if t in LogEventTypes {
      var i :| 0 <= i < |LogEventTypes| && LogEventTypes[i] == t;
      assert !Classify(t).Unlisted? && !Classify(t).AudioDelta?;
    }
  }
}

=== FILE: relay.dfy ===
/**
 * One call of the media-stream relay: the telephony pump (frames from the
 * phone side to the model) and the model pump (events from the model to
 * the phone side), sharing the stream id and the call logger; the turn
 * being tracked belongs to the model pump alone. Each pump handles one
 * message at a time, so a call is a fold over the arrivals of both
 * connections in the order they are handled. The model pump suspends while sending a cancel or a frame and
 * reads the logger again afterwards; here every line of one event goes to
 * the log file current when the event arrived.
 */
module Relay {
  import opened Wrappers
  import Base64
  import opened CallLog
  import opened Turns
  import opened EventKinds

  /** A parsed frame from the telephony media stream. */
  datatype TwilioFrame =
    | Start(streamSid: string)   // {"event": "start", "start": {"streamSid": ...}}
    | Media(payload: string)     // {"event": "media", "media": {"payload": ...}}
    | OtherFrame(event: string)  // "stop", "mark", ...: handled by neither branch

  /**
   * A frame as the parser yields it: an `event` of "start" or "media" is
   * always read as `Start` or `Media`, never as `OtherFrame`. No property
   * here depends on this, since `OtherFrame` is silent whatever it names.
   */
  predicate WellParsed(f: TwilioFrame)
  {
    f.OtherFrame? ==> f.event != "start" && f.event != "media"
  }

  /** A parsed event from the model connection: its `type` (classified), `turn.id` and `delta` fields. */
  datatype ModelEvent = ModelEvent(kind: EventKind, turnId: TurnId, delta: Option<string>)

  /** Messages the relay sends to the model. */
  datatype ToModel =
    | AudioAppend(audio: string)          // {"type": "input_audio_buffer.append", "audio": ...}
    | ResponseCancel(cancelled: string)   // {"type": "response.cancel", "turn_id": ...}

  /** `{"event": "media", "streamSid": ..., "media": {"payload": ...}}` sent to the phone side. */
  datatype ToTwilio = MediaFrame(streamSid: Option<string>, payload: string)

  /**
   * The state of one call: `stream_sid` and the call logger (represented
   * by its file), which both pumps use; `current_turn_id`, which only the
   * model pump reads and writes; and whether each connection is still
   * being read.
   */
  datatype Session = Session(
    streamSid: Option<string>,
    logFile: Option<string>,
    currentTurn: TurnId,
    modelOpen: bool,
    twilioOpen: bool)

  /** Both connections accepted, the session configuration sent, nothing received yet. */
  const Connected: Session := Session(None, None, None, true, true)

  /** What a step sends to each connection and writes to the call log, in order. */
  datatype Output = Output(toModel: seq<ToModel>, toTwilio: seq<ToTwilio>, log: seq<LogLine>)
  {
    function Then(next: Output): Output
    {
      Output(toModel + next.toModel, toTwilio + next.toTwilio, log + next.log)
    }
  }

  const Silent: Output := Output([], [], [])

  datatype Step = Step(session: Session, out: Output)

  /**
   * The telephony pump's handling of one frame, `at` being the clock
   * reading used if a logger is created. A start records the stream id and
   * opens the call's log file; a media frame is forwarded unchanged while
   * the model connection is open, whether or not a start was seen, and is
   * logged only once a logger exists.
   */
  function OnTwilioFrame(s: Session, f: TwilioFrame, at: Timestamp): (r: Step)
    ensures r.out.toTwilio == []
    ensures forall line :: line in r.out.log ==> PassesThreshold(line.level) && Some(line.file) == r.session.logFile
    ensures f.Start? ==>
      && r.session == s.(streamSid := Some(f.streamSid), logFile := Some(FileName(at, f.streamSid)))
      && r.out.toModel == []
      && r.out.log != [] && r.out.log[0] == LogLine(FileName(at, f.streamSid), Info, CallStarted(f.streamSid))
    ensures !f.Start? ==> r.session == s
    ensures f.Media? ==> r.out.toModel == if s.modelOpen then [AudioAppend(f.payload)] else []
    ensures f.Media? && s.logFile.None? ==> r.out.log == []
    ensures f.Media? && s.modelOpen && s.logFile.Some? ==> r.out.log == [LogLine(s.logFile.value, Info, ReceivedAudio)]
    ensures f.OtherFrame? ==> r.out == Silent
  {
    match f
    case Start(sid) => OnStart(s, sid, at)
    case Media(payload) => if s.modelOpen then OnMedia(s, payload) else Step(s, Silent)
    case OtherFrame(_) => Step(s, Silent)
  }

  /** A start frame: the call's stream id and log file, and the two start lines. */
  function OnStart(s: Session, sid: string, at: Timestamp): (r: Step)
    ensures r.session == s.(streamSid := Some(sid), logFile := Some(FileName(at, sid)))
    ensures r.out.toModel == [] && r.out.toTwilio == []
    ensures r.out.log == [LogLine(FileName(at, sid), Info, CallStarted(sid)), LogLine(FileName(at, sid), Info, StartPayload)]
  {
    var file := Some(FileName(at, sid));
    Step(s.(streamSid := Some(sid), logFile := file),
         Output([], [], Write(file, Info, CallStarted(sid)) + Write(file, Info, StartPayload)))
  }

  /** A media frame while the model connection is open: one append, and one INFO line if a logger exists. */
  function OnMedia(s: Session, payload: string): (r: Step)
    ensures r.session == s
    ensures r.out.toModel == [AudioAppend(payload)] && r.out.toTwilio == []
    ensures r.out.log == if s.logFile.Some? then [LogLine(s.logFile.value, Info, ReceivedAudio)] else []
  {
    Step(s, Output([AudioAppend(payload)], [],
                   Write(s.logFile, Info, ReceivedAudio) + Write(s.logFile, Debug, AudioPayloadSize(|payload|))))
  }

  /** The `LOG_EVENT_TYPES` gate: a summary line, then the payload at DEBUG. */
  function AuditEvent(logFile: Option<string>, kind: EventKind): (r: seq<LogLine>)
    ensures r != [] <==> logFile.Some? && Audited(kind)
    ensures r != [] ==> r == [LogLine(logFile.value, Info, ModelEventSeen(kind))]
  {
    if Audited(kind) then Write(logFile, Info, ModelEventSeen(kind)) + Write(logFile, Debug, FullEventPayload)
    else []
  }

  /**
   * The model pump's handling of one event. Only a turn start changes the
   * session (the tracked turn); a turn end only logs; an audio delta with a
   * truthy payload that decodes is re-encoded and sent to the phone side
   * under the current stream id, and one that does not decode is logged
   * as an error and otherwise dropped.
   */
  function OnModelEvent(s: Session, e: ModelEvent): (r: Step)
    ensures r.session == s.(currentTurn := r.session.currentTurn)
    ensures !e.kind.TurnStart? ==> r.session == s
    ensures e.kind.TurnStart? ==>
      && r.session.currentTurn == e.turnId
      && r.out.toModel == if Supersedes(s.currentTurn, e.turnId) then [ResponseCancel(s.currentTurn.value)] else []
    ensures !e.kind.TurnStart? ==> r.out.toModel == []
    ensures e.kind.TurnEnd? ==> r.out.toTwilio == []
    ensures r.out.toTwilio != [] <==>
      e.kind.AudioDelta? && Truthy(e.delta) && Base64.Decode(e.delta.value).Some?
    ensures forall m :: m in r.out.toTwilio ==> m.streamSid == s.streamSid && Base64.Canonical(m.payload)
    ensures e.kind.AudioDelta? && Truthy(e.delta) && Base64.Canonical(e.delta.value) ==>
      r.out.toTwilio == [MediaFrame(s.streamSid, e.delta.value)]
    ensures r.out.log != [] ==> s.logFile.Some?
    ensures forall line :: line in r.out.log ==> PassesThreshold(line.level) && Some(line.file) == s.logFile
    ensures s.logFile.Some? && Audited(e.kind) ==>
      r.out.log != [] && r.out.log[0] == LogLine(s.logFile.value, Info, ModelEventSeen(e.kind))
    ensures !Audited(e.kind) ==> forall line :: line in r.out.log ==> !line.entry.ModelEventSeen?
    ensures s.logFile.Some? && e.kind.TurnStart? ==>
      && LogLine(s.logFile.value, Info, NewTurn(e.turnId)) in r.out.log
      && (Supersedes(s.currentTurn, e.turnId) ==> LogLine(s.logFile.value, Info, CancelledTurn(s.currentTurn.value)) in r.out.log)
    ensures s.logFile.Some? && e.kind.TurnEnd? ==> LogLine(s.logFile.value, Info, TurnEnded(e.turnId)) in r.out.log
    ensures s.logFile.Some? && e.kind.AudioDelta? && Truthy(e.delta) ==>
      if Base64.Decode(e.delta.value).Some? then LogLine(s.logFile.value, Info, SentAudio) in r.out.log
      else LogLine(s.logFile.value, Error, AudioError) in r.out.log
    ensures forall line :: line in r.out.log && line.entry.CancelledTurn? ==>
      Supersedes(s.currentTurn, e.turnId) && e.kind.TurnStart? && line.entry.cancelled == s.currentTurn.value
  {
    var audit := AuditEvent(s.logFile, e.kind);
    if e.kind.TurnStart? then
      var t := OnTurnStart(s.currentTurn, e.turnId);
      var cancel := if t.cancel.Some? then [ResponseCancel(t.cancel.value)] else [];
      var cancelLog := if t.cancel.Some? then Write(s.logFile, Info, CancelledTurn(t.cancel.value)) else [];
      Step(s.(currentTurn := t.next), Output(cancel, [], audit + cancelLog + Write(s.logFile, Info, NewTurn(t.next))))
    else if e.kind.TurnEnd? then
      Step(s, Output([], [], audit + Write(s.logFile, Info, TurnEnded(e.turnId))))
    else if e.kind.AudioDelta? && Truthy(e.delta) then
      match Base64.PassThrough(e.delta.value)
      case Some(payload) =>
        Step(s, Output([], [MediaFrame(s.streamSid, payload)],
                       audit + Write(s.logFile, Info, SentAudio) + Write(s.logFile, Debug, AudioResponseSize(|payload|))))
      case None =>
        Step(s, Output([], [], audit + Write(s.logFile, Error, AudioError)))
    else Step(s, Output([], [], audit))
  }

  /** Something the session reacts to: a message on either connection, or one of them closing. */
  datatype Arrival =
    | FromTwilio(frame: TwilioFrame, at: Timestamp)
    | FromModel(event: ModelEvent)
    | TwilioClosed
    | ModelClosed

  /**
   * One arrival. A pump whose connection has closed reads nothing more; the
   * phone side disconnecting closes the model connection too, which ends
   * the model pump.
   */
  function Deliver(s: Session, a: Arrival): (r: Step)
    ensures r.session.modelOpen ==> s.modelOpen
    ensures r.session.twilioOpen ==> s.twilioOpen
    ensures Consistent(s) ==> Consistent(r.session)
    ensures !s.twilioOpen && !s.modelOpen ==> r == Step(s, Silent)
    ensures a.TwilioClosed? && s.twilioOpen ==> !r.session.twilioOpen && !r.session.modelOpen && r.out.toModel == [] && r.out.toTwilio == []
    ensures forall line :: line in r.out.log ==> PassesThreshold(line.level)
  {
    match a
    case FromTwilio(f, at) => if s.twilioOpen then OnTwilioFrame(s, f, at) else Step(s, Silent)
    case FromModel(e) => if s.modelOpen then OnModelEvent(s, e) else Step(s, Silent)
    case TwilioClosed =>
      if s.twilioOpen then
        Step(s.(twilioOpen := false, modelOpen := false), Output([], [], Write(s.logFile, Info, ClientDisconnected)))
      else Step(s, Silent)
    case ModelClosed => Step(s.(modelOpen := false), Silent)
  }

  /**
   * `Deliver` as the program runs on its web framework: the framework's text
   * iterator ends quietly when the caller hangs up, so the disconnect
   * handler never runs. The telephony pump just stops; nothing is logged
   * and the model connection stays open.
   */
  function DeliverAsWritten(s: Session, a: Arrival): (r: Step)
    ensures r.session.modelOpen ==> s.modelOpen
    ensures r.session.twilioOpen ==> s.twilioOpen
    ensures a.TwilioClosed? ==> r.session.modelOpen == s.modelOpen && !r.session.twilioOpen && r.out == Silent
    ensures a.TwilioClosed? && s.modelOpen ==> !Consistent(r.session)
    ensures !a.TwilioClosed? ==> r == Deliver(s, a)
  {
    match a
    case TwilioClosed => Step(s.(twilioOpen := false), Silent)
    case _ => Deliver(s, a)
  }

  /** A disconnected phone side always comes with a closed model connection. */
  predicate Consistent(s: Session)
  {
    !s.twilioOpen ==> !s.modelOpen
  }

  /** A call from state `s` over the arrivals `xs`, in order. */
  function Run(s: Session, xs: seq<Arrival>): (r: Step)
    ensures Consistent(s) ==> Consistent(r.session)
    ensures r.session.modelOpen ==> s.modelOpen
    ensures r.session.twilioOpen ==> s.twilioOpen
    ensures forall line :: line in r.out.log ==> PassesThreshold(line.level)
    decreases |xs|
  {
    if |xs| == 0 then Step(s, Silent)
    else
      var before := Run(s, xs[..|xs| - 1]);
      var last := Deliver(before.session, xs[|xs| - 1]);
      Step(last.session, before.out.Then(last.out))
  }
}

=== FILE: relay_lemmas.dfy ===
/** Properties of whole calls: folds of `Relay.Deliver` over arrival sequences. */
module RelayLemmas {
  import opened Wrappers
  import Base64
  import opened CallLog
  import opened Turns
  import opened Relay
  import opened EventKinds

  /** Running two arrival sequences one after the other is running their concatenation. */
  lemma {:induction false} RunAppend(s: Session, a: seq<Arrival>, b: seq<Arrival>)
    ensures var first := Run(s, a);
      var second := Run(first.session, b);
      Run(s, a + b) == Step(second.session, first.out.Then(second.out))
    decreases |b|
  {
    var first := Run(s, a);
    if |b| == 0 {
      assert a + b == a;
      assert first.out.Then(Silent) == first.out;
    } else {
      var init, x := b[..|b| - 1], b[|b| - 1];
      RunAppend(s, a, init);
      var mid := Run(first.session, init);
      var d := Deliver(mid.session, x);
      assert Run(first.session, b) == Step(d.session, mid.out.Then(d.out));
      assert (a + b)[..|a + b| - 1] == a + init;
      assert (a + b)[|a + b| - 1] == x;
      assert Run(s, a + b) == Step(d.session, Run(s, a + init).out.Then(d.out));
      OutputThenAssociative(first.out, mid.out, d.out);
    }
  }

  /** One more arrival at the end of a run. */
  lemma RunSnoc(s: Session, xs: seq<Arrival>, x: Arrival)
    ensures var before := Run(s, xs);
      var last := Deliver(before.session, x);
      Run(s, xs + [x]) == Step(last.session, before.out.Then(last.out))
  {
    assert (xs + [x])[..|xs|] == xs;
  }

  lemma OutputThenAssociative(o1: Output, o2: Output, o3: Output)
    ensures o1.Then(o2).Then(o3) == o1.Then(o2.Then(o3))
  {
    assert o1.toModel + o2.toModel + o3.toModel == o1.toModel + (o2.toModel + o3.toModel);
    assert o1.toTwilio + o2.toTwilio + o3.toTwilio == o1.toTwilio + (o2.toTwilio + o3.toTwilio);
    assert o1.log + o2.log + o3.log == o1.log + (o2.log + o3.log);
  }

  /** A session whose both connections are closed ignores everything. */
  lemma {:induction false} FinishedSessionIgnoresAll(s: Session, xs: seq<Arrival>)
    requires !s.twilioOpen && !s.modelOpen
    ensures Run(s, xs) == Step(s, Silent)
    decreases |xs|
  {
    if |xs| > 0 {
      FinishedSessionIgnoresAll(s, xs[..|xs| - 1]);
    }
  }

  /**
   * Once the phone side disconnects, the model connection is closed and
   * nothing that arrives afterwards is sent anywhere or logged.
   */
  lemma TwilioCloseEndsCall(s: Session, pre: seq<Arrival>, post: seq<Arrival>)
    requires Consistent(s)
    ensures !Run(s, pre + [TwilioClosed]).session.modelOpen
    ensures Run(s, pre + [TwilioClosed] + post) == Run(s, pre + [TwilioClosed])
  {
    var closed := Run(s, pre + [TwilioClosed]);
    assert (pre + [TwilioClosed])[..|pre|] == pre;
    FinishedSessionIgnoresAll(closed.session, post);
    RunAppend(s, pre + [TwilioClosed], post);
    assert closed.out.Then(Silent) == closed.out;
  }

  /**
   * The hang-up as written: the model connection stays open without a
   * phone side, no disconnect line is logged, and a later audio delta is
   * still sent towards the phone side.
   */
  lemma HangUpLeavesModelOpen(s: Session, e: ModelEvent)
    requires s.twilioOpen && s.modelOpen
    requires e.kind.AudioDelta? && Truthy(e.delta) && Base64.Canonical(e.delta.value)
    ensures var hung := DeliverAsWritten(s, TwilioClosed);
      && !hung.session.twilioOpen && hung.session.modelOpen
      && !Consistent(hung.session)
      && hung.out.log == []
      && DeliverAsWritten(hung.session, FromModel(e)).out.toTwilio == [MediaFrame(s.streamSid, e.delta.value)]
  {
  }

  predicate IsStart(a: Arrival)
  {
    a.FromTwilio? && a.frame.Start?
  }

  /**
   * Without a start frame the stream id and the log file stay as they are,
   * every frame sent to the phone side carries that stream id, and every
   * log line goes to that file.
   */
  lemma {:induction false} StreamFixedWithoutStart(s: Session, xs: seq<Arrival>)
    requires forall i :: 0 <= i < |xs| ==> !IsStart(xs[i])
    ensures Run(s, xs).session.streamSid == s.streamSid && Run(s, xs).session.logFile == s.logFile
    ensures forall m :: m in Run(s, xs).out.toTwilio ==> m.streamSid == s.streamSid
    ensures forall line :: line in Run(s, xs).out.log ==> Some(line.file) == s.logFile
    decreases |xs|
  {
    if |xs| > 0 {
      StreamFixedWithoutStart(s, xs[..|xs| - 1]);
      var before := Run(s, xs[..|xs| - 1]);
      assert !IsStart(xs[|xs| - 1]);
      var last := Deliver(before.session, xs[|xs| - 1]);
      assert last.session.streamSid == s.streamSid && last.session.logFile == s.logFile;
      assert forall m :: m in last.out.toTwilio ==> m.streamSid == s.streamSid;
      assert forall line :: line in last.out.log ==> Some(line.file) == s.logFile;
    }
  }

  /** Media arriving before any start frame is never logged (there is no logger yet). */
  lemma NoLogBeforeStart(s: Session, xs: seq<Arrival>)
    requires s.logFile.None?
    requires forall i :: 0 <= i < |xs| ==> !IsStart(xs[i])
    ensures Run(s, xs).out.log == []
  {
    StreamFixedWithoutStart(s, xs);
  }

  /**
   * After a start frame with stream id `sid` is handled at time `at`, and
   * until the next start frame, every frame sent to the phone side carries
   * `sid` and every log line goes to `call_<at>_<sid>.log`.
   */
  lemma StreamIdEchoed(s: Session, pre: seq<Arrival>, sid: string, at: Timestamp, post: seq<Arrival>)
    returns (frames: seq<ToTwilio>, lines: seq<LogLine>)
    requires Run(s, pre).session.twilioOpen
    requires forall i :: 0 <= i < |post| ==> !IsStart(post[i])
    ensures var head := Run(s, pre + [FromTwilio(Start(sid), at)]);
      var whole := Run(s, pre + [FromTwilio(Start(sid), at)] + post);
      && whole.out.toTwilio == head.out.toTwilio + frames
      && whole.out.log == head.out.log + lines
      && head.session.streamSid == Some(sid)
      && (forall m :: m in frames ==> m.streamSid == Some(sid))
      && (forall line :: line in lines ==> line.file == FileName(at, sid))
  {
    var started := pre + [FromTwilio(Start(sid), at)];
    assert started[..|pre|] == pre;
    var head := Run(s, started);
    assert head.session.streamSid == Some(sid) && head.session.logFile == Some(FileName(at, sid));
    var tail := Run(head.session, post);
    StreamFixedWithoutStart(head.session, post);
    RunAppend(s, started, post);
    frames, lines := tail.out.toTwilio, tail.out.log;
  }

  /**
   * An event that is not a turn start and is not an audio delta with a
   * decodable payload (a turn end, a delta that is missing, empty or
   * malformed, any other event) changes no state and sends nothing:
   * the call proceeds exactly as if it had not arrived, apart from the log.
   */
  predicate Inert(e: ModelEvent)
  {
    && !e.kind.TurnStart?
    && !(e.kind.AudioDelta? && Truthy(e.delta) && Base64.Decode(e.delta.value).Some?)
  }

  lemma InertEventChangesNothing(s: Session, pre: seq<Arrival>, e: ModelEvent, post: seq<Arrival>)
    requires Inert(e)
    ensures var withIt := Run(s, pre + [FromModel(e)] + post);
      var without := Run(s, pre + post);
      && withIt.session == without.session
      && withIt.out.toModel == without.out.toModel
      && withIt.out.toTwilio == without.out.toTwilio
  {
    var x := FromModel(e);
    var mid := Run(s, pre);
    var d := Deliver(mid.session, x);
    InertDeliver(mid.session, e);
    assert d.session == mid.session;
    RunSnoc(s, pre, x);
    var withX := Run(s, pre + [x]);
    assert withX.session == mid.session;
    RunAppend(s, pre + [x], post);
    var tail := Run(mid.session, post);
    assert Run(withX.session, post) == tail;
    RunAppend(s, pre, post);
    assert Run(s, pre + post) == Step(tail.session, mid.out.Then(tail.out));
    assert Run(s, pre + [x] + post) == Step(tail.session, withX.out.Then(tail.out));
    assert withX.out.toModel == mid.out.toModel;
    assert withX.out.toTwilio == mid.out.toTwilio;
  }

  lemma InertDeliver(s: Session, e: ModelEvent)
    requires Inert(e)
    ensures var d := Deliver(s, FromModel(e)); d.session == s && d.out.toModel == [] && d.out.toTwilio == []
  {
  }

  /**
   * Whatever arrives, every frame a call sends to the phone side carries
   * canonical base64: what `b64encode` produces.
   */
  lemma {:induction false} RunSendsCanonical(s: Session, xs: seq<Arrival>)
    ensures forall m :: m in Run(s, xs).out.toTwilio ==> Base64.Canonical(m.payload)
    decreases |xs|
  {
    if |xs| > 0 {
      var before := Run(s, xs[..|xs| - 1]);
      RunSendsCanonical(s, xs[..|xs| - 1]);
      DeliverSendsCanonical(before.session, xs[|xs| - 1]);
    }
  }

  lemma DeliverSendsCanonical(s: Session, a: Arrival)
    ensures forall m :: m in Deliver(s, a).out.toTwilio ==> Base64.Canonical(m.payload) && m.streamSid == s.streamSid
  {
  }

  /** The audio-append messages a run of telephony frames produces while the model side is open. */
  function MediaAppends(xs: seq<Arrival>): seq<ToModel>
    decreases |xs|
  {
    if |xs| == 0 then []
    else
      var last := xs[|xs| - 1];
      MediaAppends(xs[..|xs| - 1]) + if last.FromTwilio? && last.frame.Media? then [AudioAppend(last.frame.payload)] else []
  }

  /**
   * The telephony pump alone: with the model connection open, every media
   * payload is forwarded once, unchanged and in order, and nothing goes to
   * the phone side.
   */
  lemma {:induction false} TwilioPumpForwardsMedia(s: Session, xs: seq<Arrival>)
    requires s.modelOpen && s.twilioOpen
    requires forall i :: 0 <= i < |xs| ==> xs[i].FromTwilio?
    ensures Run(s, xs).out.toModel == MediaAppends(xs)
    ensures Run(s, xs).out.toTwilio == []
    ensures Run(s, xs).session.modelOpen && Run(s, xs).session.twilioOpen
    decreases |xs|
  {
    if |xs| > 0 {
      TwilioPumpForwardsMedia(s, xs[..|xs| - 1]);
    }
  }

  /** The ids of the turn-start events among the arrivals, in order. */
  function TurnStarts(xs: seq<Arrival>): seq<TurnId>
    decreases |xs|
  {
    if |xs| == 0 then []
    else
      var last := xs[|xs| - 1];
      TurnStarts(xs[..|xs| - 1]) + if last.FromModel? && last.event.kind.TurnStart? then [last.event.turnId] else []
  }

  function CancelMessages(cancels: seq<string>): (r: seq<ToModel>)
    ensures |r| == |cancels|
    ensures forall k :: 0 <= k < |r| ==> r[k] == ResponseCancel(cancels[k])
  {
    seq(|cancels|, k requires 0 <= k < |cancels| => ResponseCancel(cancels[k]))
  }

  /**
   * The model pump alone: the messages it sends to the model are exactly
   * the cancels of the turn controller replayed over the turn-start ids,
   * and the turn it ends on is the replay's.
   */
  lemma {:induction false} ModelPumpCancels(s: Session, xs: seq<Arrival>)
    requires s.modelOpen
    requires forall i :: 0 <= i < |xs| ==> xs[i].FromModel?
    ensures var trace := Replay(s.currentTurn, TurnStarts(xs));
      && Run(s, xs).out.toModel == CancelMessages(trace.cancels)
      && Run(s, xs).session.currentTurn == trace.final
      && Run(s, xs).session.modelOpen
    decreases |xs|
  {
    if |xs| > 0 {
      var init, x := xs[..|xs| - 1], xs[|xs| - 1];
      ModelPumpCancels(s, init);
      SplitLast(xs);
      RunSnoc(s, init, x);
      var before := Run(s, init);
      var trace := Replay(s.currentTurn, TurnStarts(init));
      DeliverModelEvent(before.session, x.event);
      var starts := TurnStarts(xs);
      if x.event.kind.TurnStart? {
        assert starts == TurnStarts(init) + [x.event.turnId];
        ReplaySnoc(s.currentTurn, TurnStarts(init), x.event.turnId);
        var t := OnTurnStart(trace.final, x.event.turnId);
        CancelMessagesAppend(trace.cancels, if t.cancel.Some? then [t.cancel.value] else []);
      } else {
        assert starts == TurnStarts(init);
        CancelMessagesAppend(trace.cancels, []);
      }
    }
  }

  lemma SplitLast<T>(xs: seq<T>)
    requires |xs| > 0
    ensures xs == xs[..|xs| - 1] + [xs[|xs| - 1]]
  {
  }

  /** What one model event sends to the model and does to the tracked turn. */
  lemma DeliverModelEvent(s: Session, e: ModelEvent)
    requires s.modelOpen
    ensures var d := Deliver(s, FromModel(e));
      && d.session.modelOpen
      && (e.kind.TurnStart? ==>
            var t := OnTurnStart(s.currentTurn, e.turnId);
            && d.out.toModel == CancelMessages(if t.cancel.Some? then [t.cancel.value] else [])
            && d.session.currentTurn == t.next)
      && (!e.kind.TurnStart? ==> d.out.toModel == [] && d.session.currentTurn == s.currentTurn)
  {
  }

  lemma ReplaySnoc(initial: TurnId, starts: seq<TurnId>, id: TurnId)
    ensures var t := OnTurnStart(Replay(initial, starts).final, id);
      Replay(initial, starts + [id]) == Trace(t.next, Replay(initial, starts).cancels + if t.cancel.Some? then [t.cancel.value] else [])
  {
    assert (starts + [id])[..|starts|] == starts;
  }

  lemma CancelMessagesAppend(a: seq<string>, b: seq<string>)
    ensures CancelMessages(a + b) == CancelMessages(a) + CancelMessages(b)
  {
  }

  /**
   * A fresh call that receives a start for stream `sid`, one media frame
   * and then an audio delta that is canonical base64 forwards the audio to
   * the model once and sends exactly one frame back, carrying `sid` and the
   * delta unchanged.
   */
  lemma StartMediaDelta(sid: string, at: Timestamp, audio: string, delta: string)
    requires delta != "" && Base64.Canonical(delta)
    ensures var out := Run(Connected, [
        FromTwilio(Start(sid), at),
        FromTwilio(Media(audio), at),
        FromModel(ModelEvent(AudioDelta, None, Some(delta)))]).out;
      && out.toTwilio == [MediaFrame(Some(sid), delta)]
      && out.toModel == [AudioAppend(audio)]
  {
    var x0, x1, x2 := FromTwilio(Start(sid), at), FromTwilio(Media(audio), at), FromModel(ModelEvent(AudioDelta, None, Some(delta)));
    BuildThree(x0, x1, x2);
    RunSnoc(Connected, [], x0);
    var r0 := Run(Connected, [x0]);
    StartStep(Connected, sid, at);
    RunSnoc(Connected, [x0], x1);
    var r1 := Run(Connected, [x0, x1]);
    MediaStep(r0.session, audio, at);
    RunSnoc(Connected, [x0, x1], x2);
    DeltaForwarded(r1.session, x2.event);
  }

  lemma BuildThree<T>(a: T, b: T, c: T)
    ensures [] + [a] == [a] && [a] + [b] == [a, b] && [a, b] + [c] == [a, b, c]
  {
  }

  /** A start frame on an open phone side sets the stream id and sends nothing. */
  lemma StartStep(s: Session, sid: string, at: Timestamp)
    requires s.twilioOpen
    ensures var d := Deliver(s, FromTwilio(Start(sid), at));
      && d.session.streamSid == Some(sid)
      && d.session.modelOpen == s.modelOpen && d.session.twilioOpen
      && d.out.toModel == [] && d.out.toTwilio == []
  {
  }

  /** A media frame with both connections open is appended to the model's input buffer, and nothing else changes. */
  lemma MediaStep(s: Session, payload: string, at: Timestamp)
    requires s.twilioOpen && s.modelOpen
    ensures var d := Deliver(s, FromTwilio(Media(payload), at));
      d.session == s && d.out.toModel == [AudioAppend(payload)] && d.out.toTwilio == []
  {
  }

  /** A canonical audio delta is sent to the phone side verbatim under the current stream id. */
  lemma DeltaForwarded(s: Session, e: ModelEvent)
    requires s.modelOpen && e.kind.AudioDelta? && Truthy(e.delta) && Base64.Canonical(e.delta.value)
    ensures var d := Deliver(s, FromModel(e));
      d.session == s && d.out.toModel == [] && d.out.toTwilio == [MediaFrame(s.streamSid, e.delta.value)]
  {
  }
}

=== FILE: turns.dfy ===
/**
 * The turn tracking of the model-event pump: the id of the turn in flight,
 * and the cancel request issued when a different turn starts over it.
 */
module Turns {
  import opened Wrappers

  /** `response.get('turn', {}).get('id')`: `None` when the field is absent or null. */
  type TurnId = Option<string>

  /** A start of `started` supersedes `current` when a turn is in flight and the ids differ. */
  predicate Supersedes(current: TurnId, started: TurnId)
  {
    Truthy(current) && current != started
  }

  /** The turn now current, and the id whose response must be cancelled, if any. */
  datatype Transition = Transition(next: TurnId, cancel: Option<string>)

  /**
   * A `turn.start` event. The started id always becomes current; a cancel
   * naming the previous id is issued exactly when that id is truthy and
   * differs from the started one, so a repeated start does nothing and the
   * new turn is never the one cancelled.
   */
  function OnTurnStart(current: TurnId, started: TurnId): (r: Transition)
    ensures r.next == started
    ensures r.cancel.Some? <==> Supersedes(current, started)
    ensures r.cancel.Some? ==> current == Some(r.cancel.value) && r.cancel.value != "" && started != current
    ensures current == started ==> r == Transition(current, None)
  {
    if Truthy(current) && current != started then Transition(started, Some(current.value))
    else Transition(started, None)
  }

  /** The state after a run of turn starts and the cancels issued along the way, in order. */
  datatype Trace = Trace(final: TurnId, cancels: seq<string>)

  function Replay(initial: TurnId, starts: seq<TurnId>): (r: Trace)
    ensures r.final == if |starts| == 0 then initial else starts[|starts| - 1]
    ensures |r.cancels| <= |starts|
    ensures forall k :: 0 <= k < |r.cancels| ==> r.cancels[k] != ""
    decreases |starts|
  {
    if |starts| == 0 then Trace(initial, [])
    else
      var before := Replay(initial, starts[..|starts| - 1]);
      var step := OnTurnStart(before.final, starts[|starts| - 1]);
      Trace(step.next, before.cancels + if step.cancel.Some? then [step.cancel.value] else [])
  }

  /** The id current just before the `i`-th start. */
  function PrevOf(initial: TurnId, starts: seq<TurnId>, i: nat): TurnId
    requires i < |starts|
  {
    if i == 0 then initial else starts[i - 1]
  }

  /** Positions of the starts that supersede the id current before them. */
  function SupersedingSteps(initial: TurnId, starts: seq<TurnId>): set<nat>
  {
    set i: nat | i < |starts| && Supersedes(PrevOf(initial, starts, i), starts[i])
  }

  /** Dropping the last start changes neither the earlier starts nor the id current before each of them. */
  lemma PrefixAgrees(initial: TurnId, starts: seq<TurnId>, i: nat)
    requires i < |starts| - 1
    ensures var prefix := starts[..|starts| - 1];
      PrevOf(initial, starts, i) == PrevOf(initial, prefix, i) && starts[i] == prefix[i]
  {
  }

  lemma SupersedingStepsSnoc(initial: TurnId, starts: seq<TurnId>)
    requires |starts| > 0
    ensures var n := |starts| - 1;
      var prefix := starts[..n];
      SupersedingSteps(initial, starts) ==
        SupersedingSteps(initial, prefix) + if Supersedes(Replay(initial, prefix).final, starts[n]) then {n} else {}
  {
    var n := |starts| - 1;
    var prefix := starts[..n];
    var whole, before := SupersedingSteps(initial, starts), SupersedingSteps(initial, prefix);
    var extra: set<nat> := if Supersedes(Replay(initial, prefix).final, starts[n]) then {n} else {};
    assert PrevOf(initial, starts, n) == Replay(initial, prefix).final;
    forall i | i in whole
      ensures i in before + extra
    {
      if i < n {
        PrefixAgrees(initial, starts, i);
      }
    }
    forall i | i in before + extra
      ensures i in whole
    {
      if i < n {
        PrefixAgrees(initial, starts, i);
      }
    }
  }

  /** One cancel per superseding start. */
  lemma {:induction false} ReplayCountsSupersessions(initial: TurnId, starts: seq<TurnId>)
    ensures |Replay(initial, starts).cancels| == |SupersedingSteps(initial, starts)|
    decreases |starts|
  {
    if |starts| > 0 {
      var n := |starts| - 1;
      var prefix := starts[..n];
      ReplayCountsSupersessions(initial, prefix);
      SupersedingStepsSnoc(initial, starts);
      assert n !in SupersedingSteps(initial, prefix);
    }
  }

  /**
   * `steps` lists, in increasing order, exactly the superseding starts, and
   * the `k`-th cancel names the id current before the `k`-th of them,
   * which is never the id being started.
   */
  predicate CancelsMatchSteps(initial: TurnId, starts: seq<TurnId>, cancels: seq<string>, steps: seq<nat>)
  {
    && |steps| == |cancels|
    && (forall k, l :: 0 <= k < l < |steps| ==> steps[k] < steps[l])
    && (forall k :: 0 <= k < |steps| ==>
          && steps[k] in SupersedingSteps(initial, starts)
          && PrevOf(initial, starts, steps[k]) == Some(cancels[k])
          && starts[steps[k]] != Some(cancels[k]))
    && (forall i :: i in SupersedingSteps(initial, starts) ==> i in steps)
  }

  /** The cancels of a replay correspond one-to-one, in order, to its superseding starts. */
  lemma {:induction false} ReplayCancelsPredecessors(initial: TurnId, starts: seq<TurnId>) returns (steps: seq<nat>)
    ensures CancelsMatchSteps(initial, starts, Replay(initial, starts).cancels, steps)
    decreases |starts|
  {
    if |starts| == 0 {
      steps := [];
    } else {
      var prefix := starts[..|starts| - 1];
      var before := ReplayCancelsPredecessors(initial, prefix);
      steps := ExtendSteps(initial, starts, before);
    }
  }

  /** The inductive step of `ReplayCancelsPredecessors`: one more start. */
  lemma ExtendSteps(initial: TurnId, starts: seq<TurnId>, before: seq<nat>) returns (steps: seq<nat>)
    requires |starts| > 0
    requires CancelsMatchSteps(initial, starts[..|starts| - 1], Replay(initial, starts[..|starts| - 1]).cancels, before)
    ensures CancelsMatchSteps(initial, starts, Replay(initial, starts).cancels, steps)
  {
    var n := |starts| - 1;
    var prefix := starts[..n];
    SupersedingStepsSnoc(initial, starts);
    var prev := Replay(initial, prefix).final;
    var cancelsBefore := Replay(initial, prefix).cancels;
    var cancels := Replay(initial, starts).cancels;
    assert PrevOf(initial, starts, n) == prev;
    var extra := if Supersedes(prev, starts[n]) then [n] else [];
    steps := before + extra;
    assert cancels == cancelsBefore + if Supersedes(prev, starts[n]) then [prev.value] else [];
    forall k | 0 <= k < |steps|
      ensures && steps[k] in SupersedingSteps(initial, starts)
              && PrevOf(initial, starts, steps[k]) == Some(cancels[k])
              && starts[steps[k]] != Some(cancels[k])
    {
      if k < |before| {
        assert steps[k] == before[k] && cancels[k] == cancelsBefore[k];
        PrefixAgrees(initial, starts, before[k]);
      }
    }
  }
}

=== FILE: wrappers.dfy ===
/** Optional values: Python's `None` or a present value, and Python truthiness. */
module Wrappers {

  /** `None` stands for Python's `None` (or a missing key); `Some(v)` for a present value. */
  datatype Option<+T> = None | Some(value: T)

  /** Python truthiness of an optional string: present and non-empty. */
  predicate Truthy(v: Option<string>)
  {
    v.Some? && v.value != ""
  }
}
